=== FILE: README.md ===
# RuralConnect core logic in Dafny

RuralConnect is a small delivery-platform web application. It has an Express API server that keeps users, products and contact messages in process memory, and a React front end with a product list and a shopping cart. Most of it is presentation and constant data. This project models its five pieces of real sequential logic as pure functions over explicit state, and proves what they promise:

- **Accounts** (`AuthRoute`). Registration validates fields, refuses duplicate emails, and gives ids from a counter. Login looks a user up by email. Tokens have the form `token_<id>_<time>`, and the `verifyToken` middleware reads the id back out of a `Bearer` header. The store is `(users, counter)`.
- **Contact form** (`ContactRoute`). Submissions are checked for presence, then name length, then message length. Accepted submissions are stored trimmed under a counter id. The admin listing sorts the store in place, newest first.
- **Product catalogue, server side** (`ProductsRoute`). Eight fixed products, narrowed by an optional case-insensitive search over name, category and description, then by an optional case-insensitive category.
- **Product list, client side** (`ProductsPage`). The same search, but an exact, case-sensitive category test. Both `""` and `"All"` mean no category filter. Each product card has an add-to-cart button that is disabled when the product is out of stock.
- **Cart panel** (`CartPanel`). What the panel shows for a cart state, the requests its buttons send to the cart context, and the checkout handler: a redirect to login without a token, otherwise a booking request and a timer that clears and closes the cart.

Shared pieces:
- `ProductSearch` holds the product record and the search test that both sides use.
- `JsString` models the JavaScript string operations: truthiness, ASCII `toLowerCase`, `includes`, `split` and `trim`.
- `Decimal` renders numbers as numerals and reads them back.
- `Sequences` holds `filter`, `find` and order-preserving subsequences.
- `CounterIds` states the id invariant that both server stores keep.

Parameters and return values stand in for effects. The clock is a `now: nat` parameter, in milliseconds. The stored token is an `Option<string>` parameter. Alerts and redirects are returned as strings. Each auth and contact handler returns its status code and JSON body, and a stateful handler also returns the new store. The products handler always answers 200 with `{ products }`, so `ProductsRoute.GetProducts` returns only the list.

A checkout would normally send the order to the server, report success only once the server accepts it, and keep the cart when the order fails. The code does not do that, and the model follows the code:
- The booking is only logged, never sent. The one failure path is the `catch` branch, which runs only if building the booking throws. In practice that means `getTotalPrice` throws. Otherwise success follows after the timer.
- The timer callback clears whatever the cart holds when it fires, including items added after the booking was built (`CartPanel.OrderConfirmed` takes that later state).
- Nothing stops a second checkout while one is pending.
- Adding to the cart does not check `inStock`. Only the button is disabled.

## Model

| member | source | states |
|---|---|---|
| AuthRoute.Register | server/routes/auth.ts:18-66 | Any missing or empty field gives 400 and leaves the store as it was. Otherwise a known email gives 400 and leaves the store as it was. 201 happens exactly when all fields are present and the email is new. It appends exactly one user whose id is the old counter in decimal, bumps the counter, and answers with a token for that id and the user without its id. |
| AuthRoute.RegisterPreservesValid | server/routes/auth.ts:30-50 | From any valid store, registration keeps emails pairwise distinct and ids distinct numerals below the counter. |
| AuthRoute.InitialValid | server/routes/auth.ts:5-6 | The empty user list with counter 1 is a valid store. |
| AuthRoute.Login | server/routes/auth.ts:76-114 | A missing or empty email or password gives 400. An unknown email gives 401. A known email gives 200 with a token and the stored user minus id, whatever the password. The store is never changed. |
| AuthRoute.GenerateToken | server/routes/auth.ts:9-11 | For an id free of `_`, the token splits on `_` into exactly `token`, the id and the issue time in decimal. For an id free of spaces, the token has no space. |
| AuthRoute.RegisterThenLogin | server/routes/auth.ts:88-112 | After a successful registration, logging in with that email and any non-empty password returns the new user and a token for its id. |
| AuthRoute.VerifyToken | server/routes/auth.ts:125-151 | A missing header, an empty header, or a header without a non-empty second space-separated part gives 401 "Access token required". The request passes exactly when the second `_` segment of the token is the id of a stored user, and then the user attached is that user. Any other token gives 401 "Invalid token". |
| AuthRoute.BearerToken | server/routes/auth.ts:126-127 | An absent or empty header gives no token, and so does a header without a space. Any token it gives is free of spaces. |
| AuthRoute.BearerIgnoresScheme | server/routes/auth.ts:127 | For any space-free word and space-free token, the header `<word> <token>` yields the token. The scheme is never checked to be `Bearer`. |
| AuthRoute.TokenUserId | server/routes/auth.ts:138 | A token without `_` gives no id, and any id it gives is free of `_`. |
| AuthRoute.TokenIdIgnoresRest | server/routes/auth.ts:138-139 | Only the segment between the first two `_` is read as the id. The word before it and everything after the second `_` are never checked. |
| AuthRoute.TokenCarriesId | server/routes/auth.ts:125-139 | For an id containing neither `_` nor a space, the header `"Bearer " + token_<id>_<time>` yields the whole token, and the token yields the id. |
| AuthRoute.TokenRoundTrip | server/routes/auth.ts:9-11 | In a valid store, a token generated for any stored user at any time verifies as exactly that user. |
| AuthRoute.RegisterThenVerify | server/routes/auth.ts:40-66 | The token returned by a successful registration verifies as the user just added. |
| Sequences.Find | server/routes/auth.ts:31 | `find` returns nothing exactly when no element matches. Otherwise it returns the first matching element. |
| JsString.Truthy | server/routes/auth.ts:23 | An absent value (`undefined`) or the empty string is falsy, and any other string is truthy. This is the test behind every `!field` and `if (search)` of the handlers. |
| Decimal.NatToString | server/routes/auth.ts:41 | A counter renders as a non-empty string of decimal digits that starts with `0` only when the counter is 0, so there are never leading zeros. |
| Decimal.ParseNatToString | server/routes/auth.ts:41 | Reading back the decimal rendering of a counter value gives that value. |
| Decimal.NatToStringInjective | server/routes/auth.ts:41 | Different counter values render as different id strings. |
| CounterIds.NextIdFresh | server/routes/contact.ts:41-49 | When ids are distinct numerals below the counter, the counter's numeral is unused, and appending it while incrementing the counter keeps that invariant. |
| JsString.Split | server/routes/auth.ts:138 | `split` returns at least one piece. No piece contains the separator, and joining the pieces with the separator gives back the input. |
| JsString.SplitFirst | server/routes/auth.ts:127 | When the text before the first separator has no separator in it, that text is the first piece and the rest is split on its own. |
| ContactRoute.Submit | server/routes/contact.ts:13-59 | Checks run in the order presence, name length in [2,100], then message length in [10,1000], each with its own 400 message. 201 happens exactly when both fields are present and within bounds. Every rejection leaves the store unchanged. Acceptance appends exactly one submission with the counter's id, the trimmed fields and the clock, and bumps the counter. |
| ContactRoute.SubmitPreservesValid | server/routes/contact.ts:40-49 | Submission ids stay distinct numerals below the counter. |
| ContactRoute.InitialValid | server/routes/contact.ts:10-11 | The empty store with counter 1 is valid. |
| ContactRoute.StoredNameMayBeShort | server/routes/contact.ts:25-44 | The length bounds apply to the untrimmed name. So the name `" A"` is accepted and stored as `"A"`, which is shorter than the minimum. |
| JsString.Trim | server/routes/contact.ts:43-44 | A trimmed string is no longer than its input and does not start or end with whitespace. |
| JsString.TrimSlice | server/routes/contact.ts:43-44 | `trim` keeps one contiguous slice of its input and drops only whitespace on either side. |
| JsString.TrimIdempotent | server/routes/contact.ts:43-44 | Trimming a trimmed string changes nothing. |
| ContactRoute.SortNewestFirst | server/routes/contact.ts:73-77 | The listing is ordered by submission time, newest first, and is a permutation of the stored submissions. |
| ContactRoute.SortIsStable | server/routes/contact.ts:73-77 | Submissions made at the same instant keep their relative order, as under the stable `Array.prototype.sort`. |
| ContactRoute.ListSubmissions | server/routes/contact.ts:70-79 | The listing sorts the store in place. The stored sequence becomes the newest-first permutation that the response returns, and the counter is untouched. |
| ContactRoute.ListPreservesValid | server/routes/contact.ts:73-77 | Reordering the store keeps ids distinct numerals below the counter. |
| ProductsRoute.Catalogue | server/routes/products.ts:5-78 | The catalogue has eight products, their ids are pairwise distinct, and every one is in stock. |
| ProductsRoute.FilterByQuery | server/routes/products.ts:80-99 | The result is an order-preserving subsequence of the input. With a non-empty search, every result matches it case-insensitively in name, category or description. With a non-empty category, every result's category equals it case-insensitively. Every input product meeting both active tests is kept, as often as it occurs in the input, and every other product is dropped. With neither parameter set, the input comes back whole. |
| ProductsRoute.GetProducts | server/routes/products.ts:4-106 | The handler answers with an order-preserving subsequence of the catalogue, no longer than it, holding only in-stock catalogue products. With neither parameter set, it answers with the whole catalogue. |
| ProductsRoute.UnfilteredIsCatalogue | server/routes/products.ts:80-103 | An absent or empty search together with an absent or empty category returns the full catalogue in its order. |
| ProductsRoute.KitchenLowerCase | server/routes/products.ts:93-99 | The category `"kitchen"` selects exactly products 7 and 8. |
| ProductsRoute.CategoryPicksPair | server/routes/products.ts:93-99 | When exactly two products match a category case-insensitively, the handler returns those two in order. |
| Sequences.Filter | server/routes/products.ts:85-90 | `filter` keeps each element satisfying the test as many times as it occurs in the input, and drops every other element, as an order-preserving subsequence. When every element passes, it returns the input unchanged. |
| Sequences.SubsequenceTransitive | server/routes/products.ts:85-98 | Filtering a filtered list still gives an order-preserving subsequence of the original. |
| JsString.ToLowerCase | server/routes/products.ts:87-89 | Lower-casing keeps the length, turns every capital letter into its small letter, leaves every other character as it is, and leaves no capital. |
| JsString.ToLowerCaseIdempotent | server/routes/products.ts:87-89 | Lower-casing an already lower-cased string changes nothing. |
| JsString.IncludesInfix | server/routes/products.ts:87-89 | `includes` holds for every string that a string is built around, the empty string and the string itself among them. |
| JsString.IncludesSplits | server/routes/products.ts:87-89 | Conversely, a string that includes `t` is its part before some occurrence, then `t`, then the part after that occurrence. |
| ProductSearch.SearchIgnoresCase | server/routes/products.ts:87-89 | A search term and its lower-cased form find the same products. |
| ProductSearch.NoDescriptionMatchesByNameOrCategory | client/pages/Products.tsx:52-58 | A product without a description matches a search only through its name or its category. |
| ProductsPage.FilterProducts | client/pages/Products.tsx:49-65 | The result is an order-preserving subsequence of the products. A non-empty search keeps only case-insensitive matches. A category other than `""` and `"All"` keeps only products whose category equals it exactly. Every product meeting both active tests is kept, as often as it occurs, and every other product is dropped. An empty search with `""` or `"All"` returns the products unchanged. |
| ProductsPage.AllOptionIsNoFilter | client/pages/Products.tsx:173-175 | The "All" option sends `""`, which filters exactly as `"All"` itself does, so only the search narrows the list. |
| ProductsPage.SelectorOptions | client/pages/Products.tsx:27 | The selector offers "All", sent as the empty string, and then exactly the catalogue's categories in catalogue order. Each is sent as itself and switches the category test on. |
| ProductsPage.PageNarrowerThanRoute | client/pages/Products.tsx:60-62 | For any products, search and category other than `"All"`, the page keeps an order-preserving subsequence of what the server route keeps. An exact category match is also a case-insensitive one. |
| ProductsPage.KitchenCaseDiffers | client/pages/Products.tsx:60-62 | With `"kitchen"`, the server returns two products, while the page shows nothing from the same catalogue. The page's selector never sends `"kitchen"` (see `ProductsPage.OptionsAgree`), so the difference appears only for a `category` query parameter sent to the route directly. |
| ProductsPage.OptionsAgree | client/pages/Products.tsx:173-175 | For every option the selector can send, `""` or a capitalised category, and every search term, the page shows exactly the catalogue products that the route returns for the same parameters. |
| ProductsPage.CaseDistinctListsAgree | client/pages/Products.tsx:60-62 | When every product's category is one of a set of names that are distinct ignoring case and that exclude "All", the page's exact category test and the route's case-insensitive one give the same list, for the empty category and for each of those names. |
| ProductsPage.LabelsCaseDistinct | client/pages/Products.tsx:27 | No two of the selector's category labels are equal once lower-cased. |
| ProductsPage.AddButtonFor | client/pages/Products.tsx:237-253 | The add button is disabled exactly when the product is out of stock, and reads "Out of Stock" exactly then. |
| ProductsPage.CatalogueButtons | client/pages/Products.tsx:238-245 | No catalogue product's button is disabled. Its payload copies id, name, price, category and icon, and its id alone identifies the product in the catalogue. `ProductsRoute.GetProducts` returns only catalogue products, so this holds for every query. |
| CartPanel.HandleCheckout | client/components/Cart.tsx:15-47 | Without a truthy token, the step is a login redirect with an alert, the panel closed and the items unchanged. With a token but no total, because computing it threw, the step is the failure alert with the cart unchanged. Otherwise the cart is left as it is, and the booking has one line per item, in order, with that item's id and quantity, plus the rupee-prefixed total. |
| CartPanel.BookingItems | client/components/Cart.tsx:26-30 | The booking lines have the length and order of the cart items, and each copies its item's id and quantity. |
| CartPanel.BookingKeepsUnits | client/components/Cart.tsx:26-30 | The booking asks for as many units in total as the cart holds. |
| CartPanel.OrderConfirmed | client/components/Cart.tsx:37-42 | The confirmation callback leaves the cart empty and closed and sends the user to the dashboard. |
| CartPanel.CheckoutOutcome | client/components/Cart.tsx:16-46 | With a token and a total and no event in between, checkout and confirmation end with an empty, closed cart, and the booking carries all the cart's units. A failed checkout leaves the cart as it was. Without a token, the items are kept and the panel is closed. |
| CartPanel.Render | client/components/Cart.tsx:49-172 | A closed cart renders nothing. An open cart shows one row per item. The empty notice appears exactly when there are no items, and the footer appears exactly when there are some. |
| CartPanel.PanelRequests | client/components/Cart.tsx:140-160 | The Checkout and Clear Cart requests can be sent exactly when the cart has items. Every update or remove request names an item in the cart. |
| CartPanel.RowRequestsTargetItems | client/components/Cart.tsx:90-133 | The item rows only send update-quantity or remove requests, and each names an item of the cart. |
| CartPanel.RowButtons | client/components/Cart.tsx:105-130 | Each row's − and + buttons request exactly one less and one more than its shown quantity for its id, and its bin button removes it. |

## Left out

- Cart context: `addItem`, `updateQuantity`, `removeItem`, `getTotalItems` and `getTotalPrice` live in `client/contexts/CartContext`, which is not part of this model. The panel's buttons are modelled as the requests they send. `clearCart` and `closeCart` are taken to empty the items and hide the panel. Nothing else about the reducer is assumed.
- Money: price strings are never parsed, and `getTotalPrice().toFixed(2)` is floating-point. Checkout takes the formatted total as a parameter, and `None` stands for a total whose computation threw.
- Store sizes: the user and submission arrays become unbounded sequences, and their counters become unbounded naturals. So `AuthRoute.Register`, `ContactRoute.Submit` and the invariant lemmas promise a 201 and a fresh id at every size. A JavaScript array cannot grow past 2^32−1 elements, at which point `push` throws and the `catch` answers 500. A counter held as a double stops growing at 2^53. Neither limit is modelled.
- Effects: `fetch`, `localStorage`, `alert`, `window.location`, `setTimeout` and `console.log` are not performed. They become parameters or returned values. The one-second timer becomes a second function, `CartPanel.OrderConfirmed`, applied to whatever state the cart has when it fires.
- Clock: `Date.now()` and `new Date().toISOString()` become one `now` parameter per request, so `createdAt`, `submittedAt` and the token time share it. Comparing parsed ISO dates becomes comparing these integers.
- Express plumbing: routing in `server/index.ts`, `req`/`res`/`next`, and the `catch` branches that answer 500 are left out. For JSON bodies whose fields are strings or absent, nothing in the `try` blocks throws. In `server/routes/contact.ts`, a falsy non-string `name` or `message` (`0`, `false`, `null`) is refused by the presence check. A truthy one with no numeric `length`, such as a number or `true`, passes the length checks, because `undefined` compares false both ways. Its `trim` then throws, and the handler answers 500. An array is measured by its element count, so only one with an in-range count reaches `trim` and the 500. See the "Input shapes" line. `verifyToken` and `getContactSubmissions` are modelled even though `server/index.ts` mounts neither.
- Input shapes: body fields are strings or absent, and query parameters are single strings or absent. Non-string JSON values, a missing body, and repeated query parameters (which Express turns into arrays) are not modelled.
- AuthRoute.Login: passwords are never checked or stored in the source, so there is nothing to model there. `hashPassword` is never called.
- JsString.ToLowerCase: maps only ASCII letters, not the full Unicode case mapping of `toLowerCase`.
- ContactRoute.Submit: lengths count Unicode scalar values, while JavaScript `length` counts UTF-16 code units, so the two differ for characters outside the Basic Multilingual Plane.
- Presentation: the loading spinner, the mobile menu, the cart badge, the "Showing N of M" line, the clear-filters button and all styling are not modelled.
- Static data: `server/routes/news.ts`, `server/routes/services.ts`, `client/pages/Index.tsx` and `client/pages/Dashboard.tsx` are not part of this model. `shared/api.ts` appears only as the datatypes that mirror its interfaces.

=== FILE: auth_route.dfy ===
/**
 * The account handlers of the server: registration and login over an
 * in-memory user list with an id counter, the `token_<id>_<time>` token
 * scheme, and the middleware that reads a user id back out of a bearer
 * token. The clock (`Date.now()`, `new Date().toISOString()`) is the `now`
 * parameter, in milliseconds.
 */
module AuthRoute {
  import opened Wrappers
  import opened Decimal
  import opened JsString
  import opened Sequences
  import CounterIds

  datatype User = User(id: string, name: string, email: string, phone: string,
                       address: string, createdAt: nat)

  /** A user as responses show it: every field but the id. */
  datatype PublicUser = PublicUser(name: string, email: string, phone: string,
                                   address: string, createdAt: nat)

  function WithoutId(u: User): PublicUser {
    PublicUser(u.name, u.email, u.phone, u.address, u.createdAt)
  }

  /** Request bodies; a field the client left out is `None`. */
  datatype RegisterRequest = RegisterRequest(name: Option<string>, email: Option<string>,
                                             phone: Option<string>, address: Option<string>,
                                             password: Option<string>)

  datatype LoginRequest = LoginRequest(email: Option<string>, password: Option<string>)

  /** JSON bodies: `{ success: false, message }` or an `AuthResponse`. */
  datatype Body = Failure(message: string) | Authenticated(token: string, user: PublicUser)

  datatype Reply = Reply(status: nat, body: Body)

  /** The module-level `users` array and `userIdCounter`. */
  datatype Store = Store(users: seq<User>, counter: nat)

  const Initial := Store([], 1)

  function UserIds(users: seq<User>): seq<string> {
    seq(|users|, i requires 0 <= i < |users| => users[i].id)
  }

  predicate EmailsDistinct(users: seq<User>) {
    forall i, j :: 0 <= i < j < |users| ==> users[i].email != users[j].email
  }

  predicate EmailTaken(users: seq<User>, email: string) {
    exists i :: 0 <= i < |users| && users[i].email == email
  }

  /** What every reachable store satisfies: ids are distinct numerals below
      the counter and no two users share an email. */
  predicate Valid(st: Store) {
    CounterIds.IssuedBelow(UserIds(st.users), st.counter) && EmailsDistinct(st.users)
  }

  lemma InitialValid()
    ensures Valid(Initial)
  {
  }

  /** `generateToken`: for an id free of '_', the token splits on '_' into
      exactly the word "token", the id and the decimal issue time; for an id
      free of ' ', the token has no space. */
  function GenerateToken(userId: string, now: nat): (token: string)
    ensures '_' !in userId ==> Split(token, '_') == ["token", userId, NatToString(now)]
    ensures ' ' !in userId ==> ' ' !in token
  {
    var time := NatToString(now);
    assert '_' !in time && ' ' !in time;
    var token := "token_" + userId + "_" + time;
    if '_' in userId then token
    else
      assert token == "token" + ['_'] + (userId + ['_'] + time);
      SplitFirst("token", '_', userId + ['_'] + time);
      SplitFirst(userId, '_', time);
      SplitFree(time, '_');
      token
  }

  /** `users.find(user => user.email === email)`. */
  function FindByEmail(users: seq<User>, email: string): Option<User> {
    Find(users, (u: User) => u.email == email)
  }

  predicate AllFieldsPresent(req: RegisterRequest) {
    Truthy(req.name) && Truthy(req.email) && Truthy(req.phone) && Truthy(req.address)
    && Truthy(req.password)
  }

  /** POST /api/register. */
  function Register(st: Store, req: RegisterRequest, now: nat): (result: (Store, Reply))
    ensures !AllFieldsPresent(req) ==>
              result == (st, Reply(400, Failure("All fields are required")))
    ensures AllFieldsPresent(req) && EmailTaken(st.users, req.email.value) ==>
              result == (st, Reply(400, Failure("User with this email already exists")))
    ensures result.1.status == 201 <==>
              AllFieldsPresent(req) && !EmailTaken(st.users, req.email.value)
    ensures result.1.status == 201 ==>
              && result.0.counter == st.counter + 1
              && |result.0.users| == |st.users| + 1
              && result.0.users[..|st.users|] == st.users
              && result.0.users[|st.users|]
                 == User(NatToString(st.counter), req.name.value, req.email.value,
                         req.phone.value, req.address.value, now)
              && result.1.body
                 == Authenticated(GenerateToken(NatToString(st.counter), now),
                                  WithoutId(result.0.users[|st.users|]))
  {
    if !AllFieldsPresent(req) then
      (st, Reply(400, Failure("All fields are required")))
    else if FindByEmail(st.users, req.email.value).Some? then
      (st, Reply(400, Failure("User with this email already exists")))
    else
      var user := User(NatToString(st.counter), req.name.value, req.email.value,
                       req.phone.value, req.address.value, now);
      var st' := Store(st.users + [user], st.counter + 1);
      assert st'.users[..|st.users|] == st.users;
      (st', Reply(201, Authenticated(GenerateToken(user.id, now), WithoutId(user))))
  }

  /** POST /api/login. The password is never compared: any non-empty one is
      accepted for a known email. */
  function Login(st: Store, req: LoginRequest, now: nat): (r: Reply)
    ensures !Truthy(req.email) || !Truthy(req.password) ==>
              r == Reply(400, Failure("Email and password are required"))
    ensures Truthy(req.email) && Truthy(req.password) && !EmailTaken(st.users, req.email.value) ==>
              r == Reply(401, Failure("Invalid email or password"))
    ensures r.status == 200 <==>
              Truthy(req.email) && Truthy(req.password) && EmailTaken(st.users, req.email.value)
    ensures r.status == 200 ==>
              exists i :: 0 <= i < |st.users| && st.users[i].email == req.email.value
                          && r.body == Authenticated(GenerateToken(st.users[i].id, now),
                                                     WithoutId(st.users[i]))
  {
    if !Truthy(req.email) || !Truthy(req.password) then
      Reply(400, Failure("Email and password are required"))
    else
      match FindByEmail(st.users, req.email.value)
      case None => Reply(401, Failure("Invalid email or password"))
      case Some(user) => Reply(200, Authenticated(GenerateToken(user.id, now), WithoutId(user)))
  }

  /** The second space-separated part of the Authorization header, as
      `authHeader && authHeader.split(' ')[1]`; `None` stands for `undefined`
      and for a falsy header. The part is free of spaces, and a header
      without a space has none. */
  function BearerToken(authorization: Option<string>): (token: Option<string>)
    ensures !Truthy(authorization) ==> token.None?
    ensures Truthy(authorization) && ' ' !in authorization.value ==> token.None?
    ensures token.Some? ==> ' ' !in token.value
  {
    if !Truthy(authorization) then None
    else
      var parts := Split(authorization.value, ' ');
      if |parts| > 1 then Some(parts[1]) else None
  }

  /** Whatever word stands before the first space, the part after it is
      taken as the token: the scheme is never checked to be "Bearer". */
  lemma BearerIgnoresScheme(scheme: string, token: string)
    requires ' ' !in scheme && ' ' !in token
    ensures BearerToken(Some(scheme + " " + token)) == Some(token)
  {
    assert scheme + " " + token == scheme + [' '] + token;
    SplitFirst(scheme, ' ', token);
    SplitFree(token, ' ');
  }

  /** `token.split('_')[1]`: a piece free of '_', absent when the token has
      no '_'. */
  function TokenUserId(token: string): (userId: Option<string>)
    ensures '_' !in token ==> userId.None?
    ensures userId.Some? ==> '_' !in userId.value
  {
    var parts := Split(token, '_');
    if |parts| > 1 then Some(parts[1]) else None
  }

  /** Only the segment between the first two '_' is read: neither the word
      before it nor anything after the second '_' is checked. */
  lemma TokenIdIgnoresRest(prefix: string, userId: string, rest: string)
    requires '_' !in prefix && '_' !in userId
    ensures TokenUserId(prefix + "_" + userId + "_" + rest) == Some(userId)
  {
    assert prefix + "_" + userId + "_" + rest == prefix + ['_'] + (userId + ['_'] + rest);
    SplitFirst(prefix, '_', userId + ['_'] + rest);
    SplitFirst(userId, '_', rest);
  }

  /** Either the middleware calls `next()` with `user` attached, or it answers. */
  datatype Verdict = Pass(user: User) | Reject(reply: Reply)

  /** The `verifyToken` middleware. */
  function VerifyToken(st: Store, authorization: Option<string>): (v: Verdict)
    ensures !Truthy(BearerToken(authorization)) ==>
              v == Reject(Reply(401, Failure("Access token required")))
    ensures Truthy(BearerToken(authorization)) && v.Reject? ==>
              v == Reject(Reply(401, Failure("Invalid token")))
    ensures v.Pass? <==>
              && Truthy(BearerToken(authorization))
              && var userId := TokenUserId(BearerToken(authorization).value);
                 userId.Some? && userId.value in UserIds(st.users)
    ensures v.Pass? ==> v.user in st.users
                        && Some(v.user.id) == TokenUserId(BearerToken(authorization).value)
  {
    var token := BearerToken(authorization);
    if !Truthy(token) then
      Reject(Reply(401, Failure("Access token required")))
    else
      var userId := TokenUserId(token.value);
      match Find(st.users, (u: User) => Some(u.id) == userId)
      case None =>
        assert userId.Some? ==> userId.value !in UserIds(st.users);
        Reject(Reply(401, Failure("Invalid token")))
      case Some(user) =>
        var i :| 0 <= i < |st.users| && st.users[i] == user && Some(user.id) == userId;
        assert UserIds(st.users)[i] == user.id;
        Pass(user)
  }

  /** A token issued for an id free of '_' and ' ' carries that id, and the
      bearer header built from it yields the token again. */
  lemma TokenCarriesId(id: string, now: nat)
    requires '_' !in id && ' ' !in id
    ensures BearerToken(Some("Bearer " + GenerateToken(id, now))) == Some(GenerateToken(id, now))
    ensures TokenUserId(GenerateToken(id, now)) == Some(id)
  {
    var token := GenerateToken(id, now);
    assert "Bearer " + token == "Bearer" + " " + token;
    BearerIgnoresScheme("Bearer", token);
  }

  lemma DigitsHaveNoSeparators(id: string)
    requires AllDigits(id)
    ensures '_' !in id && ' ' !in id
  {
  }

  /** In a valid store, the bearer header for any token issued to a stored
      user identifies exactly that user, whatever the issue time. */
  lemma TokenRoundTrip(st: Store, k: nat, now: nat)
    requires Valid(st) && k < |st.users|
    ensures VerifyToken(st, Some("Bearer " + GenerateToken(st.users[k].id, now))) == Pass(st.users[k])
  {
    var id := st.users[k].id;
    assert UserIds(st.users)[k] == id;
    DigitsHaveNoSeparators(id);
    TokenCarriesId(id, now);
    var f := (u: User) => Some(u.id) == Some(id);
    forall i | 0 <= i < |st.users| && i != k
      ensures !f(st.users[i])
    {
      assert UserIds(st.users)[i] == st.users[i].id;
    }
    FindUnique(st.users, f, k);
  }

  /** Registration and login never break the store invariant. */
  lemma RegisterPreservesValid(st: Store, req: RegisterRequest, now: nat)
    requires Valid(st)
    ensures Valid(Register(st, req, now).0)
  {
    var (st', reply) := Register(st, req, now);
    if reply.status == 201 {
      CounterIds.NextIdFresh(UserIds(st.users), st.counter);
      assert UserIds(st'.users) == UserIds(st.users) + [NatToString(st.counter)];
      forall i, j | 0 <= i < j < |st'.users|
        ensures st'.users[i].email != st'.users[j].email
      {
        if j == |st.users| {
          assert st'.users[i] == st.users[i];
        }
      }
    }
  }

  /** The token a successful registration returns verifies as the new user. */
  lemma RegisterThenVerify(st: Store, req: RegisterRequest, now: nat)
    requires Valid(st)
    requires Register(st, req, now).1.status == 201
    ensures var (st', reply) := Register(st, req, now);
            VerifyToken(st', Some("Bearer " + reply.body.token)) == Pass(st'.users[|st.users|])
  {
    var (st', reply) := Register(st, req, now);
    RegisterPreservesValid(st, req, now);
    TokenRoundTrip(st', |st.users|, now);
  }

  /** After a successful registration, logging in with that email and any
      non-empty password returns the registered user. */
  lemma RegisterThenLogin(st: Store, req: RegisterRequest, now: nat, password: string, later: nat)
    requires Valid(st)
    requires Register(st, req, now).1.status == 201
    requires password != ""
    ensures var (st', reply) := Register(st, req, now);
            Login(st', LoginRequest(req.email, Some(password)), later)
            == Reply(200, Authenticated(GenerateToken(NatToString(st.counter), later), reply.body.user))
  {
    var (st', reply) := Register(st, req, now);
    RegisterPreservesValid(st, req, now);
    var k := |st.users|;
    var f := (u: User) => u.email == req.email.value;
    forall i | 0 <= i < |st'.users| && i != k
      ensures !f(st'.users[i])
    {
      assert st'.users[i] == st.users[i];
    }
    FindUnique(st'.users, f, k);
  }
}

=== FILE: cart_panel.dfy ===
/**
 * The slide-over cart panel: what it shows for a cart state, the requests
 * its controls send to the cart context, and the checkout handler.
 *
 * The cart context itself (the reducer behind `addItem`, `updateQuantity`,
 * `removeItem` and `getTotalPrice`) is not part of this model; the panel's
 * controls are modelled as the requests they send. `clearCart` and
 * `closeCart` are taken to empty the items and to hide the panel.
 */
module CartPanel {
  import opened Wrappers
  import opened JsString

  datatype CartItem = CartItem(id: string, name: string, price: string, category: string,
                               icon: string, quantity: int)

  datatype CartState = CartState(items: seq<CartItem>, isOpen: bool)

  /** Calls the panel makes into the cart context, and the checkout handler. */
  datatype CartRequest =
    | UpdateQuantity(id: string, quantity: int)
    | RemoveItem(id: string)
    | ClearCart
    | CloseCart
    | Checkout

  function Clear(cart: CartState): CartState {
    cart.(items := [])
  }

  function Close(cart: CartState): CartState {
    cart.(isOpen := false)
  }

  // ----- Checkout -----

  datatype BookingItem = BookingItem(productId: string, quantity: int)

  datatype BookingRequest = BookingRequest(items: seq<BookingItem>, totalAmount: string)

  /** `state.items.map(item => ({ productId: item.id, quantity: item.quantity }))`. */
  function BookingItems(items: seq<CartItem>): (r: seq<BookingItem>)
    ensures |r| == |items|
    ensures forall i :: 0 <= i < |r| ==> r[i].productId == items[i].id && r[i].quantity == items[i].quantity
    decreases |items|
  {
    if |items| == 0 then []
    else [BookingItem(items[0].id, items[0].quantity)] + BookingItems(items[1..])
  }

  function TotalUnits(items: seq<CartItem>): int
    decreases |items|
  {
    if |items| == 0 then 0 else items[0].quantity + TotalUnits(items[1..])
  }

  function BookedUnits(lines: seq<BookingItem>): int
    decreases |lines|
  {
    if |lines| == 0 then 0 else lines[0].quantity + BookedUnits(lines[1..])
  }

  /** The booking asks for as many units as the cart holds. */
  lemma {:induction false} BookingKeepsUnits(items: seq<CartItem>)
    ensures BookedUnits(BookingItems(items)) == TotalUnits(items)
    decreases |items|
  {
    if |items| > 0 {
      BookingKeepsUnits(items[1..]);
      assert BookingItems(items)[1..] == BookingItems(items[1..]);
    }
  }

  const LoginAlert := "Please log in to proceed with checkout"
  const SuccessAlert := "Order placed successfully! You can view it in your dashboard."
  const FailureAlert := "Failed to place order. Please try again."

  /** What `handleCheckout` does before it returns: it sends the user to log
      in, or it builds the booking and arms the confirmation timer, or the
      booking could not be built and the `catch` branch alerts. */
  datatype CheckoutStep =
    | LoginRequired(cart: CartState, alert: string, redirect: string)
    | OrderPending(cart: CartState, request: BookingRequest)
    | OrderFailed(cart: CartState, alert: string)

  /** `handleCheckout`. `token` is the stored token (`None` for `null`).
      `formattedTotal` is `getTotalPrice().toFixed(2)` of the context, or
      `None` when that call throws inside the `try` block. */
  function HandleCheckout(cart: CartState, token: Option<string>, formattedTotal: Option<string>)
    : (step: CheckoutStep)
    ensures step.LoginRequired? <==> !Truthy(token)
    ensures step.OrderFailed? <==> Truthy(token) && formattedTotal.None?
    ensures step.LoginRequired? ==>
              && step.cart.items == cart.items
              && !step.cart.isOpen
              && step.alert == LoginAlert
              && step.redirect == "/login"
    ensures step.OrderFailed? ==> step.cart == cart && step.alert == FailureAlert
    ensures step.OrderPending? ==>
              && step.cart == cart
              && |step.request.items| == |cart.items|
              && (forall i :: 0 <= i < |cart.items| ==>
                    step.request.items[i] == BookingItem(cart.items[i].id, cart.items[i].quantity))
              && step.request.totalAmount == "₹" + formattedTotal.value
  {
    if !Truthy(token) then
      LoginRequired(Close(cart), LoginAlert, "/login")
    else if formattedTotal.None? then
      OrderFailed(cart, FailureAlert)
    else
      OrderPending(cart, BookingRequest(BookingItems(cart.items), "₹" + formattedTotal.value))
  }

  datatype Completion = Completion(cart: CartState, alert: string, redirect: string)

  /** The timer callback one second after a checkout: `clearCart`, then
      `closeCart`, then the dashboard. */
  function OrderConfirmed(cart: CartState): (c: Completion)
    ensures c.cart == CartState([], false)
    ensures c.alert == SuccessAlert && c.redirect == "/dashboard"
  {
    Completion(Close(Clear(cart)), SuccessAlert, "/dashboard")
  }

  /** A checkout with a token and a total, confirmed with no other event in
      between, ends with an empty, closed cart that booked every unit; a
      failed checkout leaves the cart as it was; without a token the cart's
      items are kept and the panel is closed. */
  lemma CheckoutOutcome(cart: CartState, token: Option<string>, formattedTotal: Option<string>)
    ensures var step := HandleCheckout(cart, token, formattedTotal);
            if !Truthy(token) then step.cart == CartState(cart.items, false)
            else if formattedTotal.None? then step.cart == cart
            else OrderConfirmed(step.cart).cart == CartState([], false)
                 && BookedUnits(step.request.items) == TotalUnits(cart.items)
  {
    BookingKeepsUnits(cart.items);
  }

  // ----- Rendering -----

  /** One line of the panel with the requests its three buttons send. */
  datatype ItemRow = ItemRow(item: CartItem, decrease: CartRequest, increase: CartRequest,
                             remove: CartRequest)

  /** The footer shown under a non-empty cart. */
  datatype Footer = Footer(checkout: CartRequest, clear: CartRequest, continueShopping: CartRequest)

  datatype PanelView = PanelView(rows: seq<ItemRow>, emptyNotice: Option<CartRequest>,
                                 footer: Option<Footer>)

  function Row(item: CartItem): ItemRow {
    ItemRow(item, UpdateQuantity(item.id, item.quantity - 1),
            UpdateQuantity(item.id, item.quantity + 1), RemoveItem(item.id))
  }

  /** The panel for a cart state; `None` is the component rendering `null`. */
  function Render(cart: CartState): (view: Option<PanelView>)
    ensures view.None? <==> !cart.isOpen
    ensures view.Some? ==>
              && |view.value.rows| == |cart.items|
              && (view.value.emptyNotice.Some? <==> |cart.items| == 0)
              && (view.value.footer.Some? <==> |cart.items| > 0)
  {
    if !cart.isOpen then None
    else
      var rows := seq(|cart.items|, i requires 0 <= i < |cart.items| => Row(cart.items[i]));
      if |cart.items| == 0 then
        Some(PanelView(rows, Some(CloseCart), None))
      else
        Some(PanelView(rows, None, Some(Footer(Checkout, ClearCart, CloseCart))))
  }

  /** Every request a click on the panel can send: the backdrop and the
      header close it, then the rows, then the empty notice or the footer. */
  function Requests(view: PanelView): seq<CartRequest> {
    [CloseCart, CloseCart]
    + RowRequests(view.rows)
    + (if view.emptyNotice.Some? then [view.emptyNotice.value] else [])
    + (if view.footer.Some? then
         [view.footer.value.checkout, view.footer.value.clear, view.footer.value.continueShopping]
       else [])
  }

  function RowRequests(rows: seq<ItemRow>): seq<CartRequest>
    decreases |rows|
  {
    if |rows| == 0 then []
    else [rows[0].decrease, rows[0].increase, rows[0].remove] + RowRequests(rows[1..])
  }

  predicate InCart(cart: CartState, id: string) {
    exists i :: 0 <= i < |cart.items| && cart.items[i].id == id
  }

  predicate TargetsItem(r: CartRequest) {
    r.UpdateQuantity? || r.RemoveItem?
  }

  /** The Checkout and Clear Cart buttons exist exactly when the cart has
      items, and every per-item request names an item of the cart. */
  lemma PanelRequests(cart: CartState)
    requires cart.isOpen
    ensures var reqs := Requests(Render(cart).value);
            && (Checkout in reqs <==> |cart.items| > 0)
            && (ClearCart in reqs <==> |cart.items| > 0)
            && (forall r :: r in reqs && TargetsItem(r) ==> InCart(cart, r.id))
  {
    var view := Render(cart).value;
    RowRequestsTargetItems(view.rows, cart.items);
    var reqs := Requests(view);
    var head: seq<CartRequest> := [CloseCart, CloseCart];
    var tail := reqs[|head| + |RowRequests(view.rows)|..];
    assert reqs == head + RowRequests(view.rows) + tail;
    forall r | r in reqs && TargetsItem(r)
      ensures InCart(cart, r.id)
    {
      assert r in RowRequests(view.rows);
    }
  }

  /** Row requests only update or remove, and only items of the cart. */
  lemma {:induction false} RowRequestsTargetItems(rows: seq<ItemRow>, items: seq<CartItem>)
    requires |rows| == |items| && forall i :: 0 <= i < |rows| ==> rows[i] == Row(items[i])
    ensures forall r :: r in RowRequests(rows) ==>
              TargetsItem(r) && exists i :: 0 <= i < |items| && items[i].id == r.id
    decreases |rows|
  {
    if |rows| > 0 {
      RowRequestsTargetItems(rows[1..], items[1..]);
      var rest := RowRequests(rows[1..]);
      forall r | r in RowRequests(rows)
        ensures TargetsItem(r) && exists i :: 0 <= i < |items| && items[i].id == r.id
      {
        if r in rest {
          var i :| 0 <= i < |items[1..]| && items[1..][i].id == r.id;
          assert items[i + 1].id == r.id;
        } else {
          assert items[0].id == r.id;
        }
      }
    }
  }

  /** The −/+ buttons of each line ask for one less / one more than its
      shown quantity, and its bin removes it. */
  lemma RowButtons(cart: CartState, i: nat)
    requires cart.isOpen && i < |cart.items|
    ensures var row := Render(cart).value.rows[i];
            && row.item == cart.items[i]
            && row.decrease == UpdateQuantity(cart.items[i].id, cart.items[i].quantity - 1)
            && row.increase == UpdateQuantity(cart.items[i].id, cart.items[i].quantity + 1)
            && row.remove == RemoveItem(cart.items[i].id)
  {
  }
}

=== FILE: contact_route.dfy ===
/**
 * The contact form handlers of the server: validation and storage of a
 * submission, and the admin listing that orders the store newest first.
 * `submittedAt` is an ISO date string in the source; here it is the clock
 * reading in milliseconds, which orders the same way.
 */
module ContactRoute {
  import opened Wrappers
  import opened Decimal
  import opened JsString
  import CounterIds

  datatype Submission = Submission(id: string, name: string, message: string, submittedAt: nat)

  /** A request body; a field the client left out is `None`. */
  datatype ContactRequest = ContactRequest(name: Option<string>, message: Option<string>)

  datatype Body = Response(success: bool, message: string) | Listing(submissions: seq<Submission>)

  datatype Reply = Reply(status: nat, body: Body)

  /** The module-level `contactSubmissions` array and `submissionIdCounter`. */
  datatype Store = Store(submissions: seq<Submission>, counter: nat)

  const Initial := Store([], 1)

  const MinName := 2
  const MaxName := 100
  const MinMessage := 10
  const MaxMessage := 1000

  function SubmissionIds(s: seq<Submission>): seq<string> {
    seq(|s|, i requires 0 <= i < |s| => s[i].id)
  }

  predicate Valid(st: Store) {
    CounterIds.IssuedBelow(SubmissionIds(st.submissions), st.counter)
  }

  lemma InitialValid()
    ensures Valid(Initial)
  {
  }

  /** POST /api/contact. Bounds apply to the fields as sent; the stored
      fields are trimmed. */
  function Submit(st: Store, req: ContactRequest, now: nat): (result: (Store, Reply))
    ensures !Truthy(req.name) || !Truthy(req.message) ==>
              result == (st, Reply(400, Response(false, "Name and message are required")))
    ensures Truthy(req.name) && Truthy(req.message)
            && !(MinName <= |req.name.value| <= MaxName) ==>
              result == (st, Reply(400, Response(false, "Name must be between 2 and 100 characters")))
    ensures Truthy(req.name) && Truthy(req.message)
            && MinName <= |req.name.value| <= MaxName
            && !(MinMessage <= |req.message.value| <= MaxMessage) ==>
              result == (st, Reply(400, Response(false, "Message must be between 10 and 1000 characters")))
    ensures result.1.status == 201 <==>
              && req.name.Some? && MinName <= |req.name.value| <= MaxName
              && req.message.Some? && MinMessage <= |req.message.value| <= MaxMessage
    ensures result.1.status != 201 ==> result.0 == st && result.1.status == 400
    ensures result.1.status == 201 ==>
              && result.0 == Store(st.submissions
                                   + [Submission(NatToString(st.counter), Trim(req.name.value),
                                                 Trim(req.message.value), now)],
                                   st.counter + 1)
              && result.1.body == Response(true, "Thank you for your message! We'll get back to you soon.")
  {
    if !Truthy(req.name) || !Truthy(req.message) then
      (st, Reply(400, Response(false, "Name and message are required")))
    else if |req.name.value| < MinName || |req.name.value| > MaxName then
      (st, Reply(400, Response(false, "Name must be between 2 and 100 characters")))
    else if |req.message.value| < MinMessage || |req.message.value| > MaxMessage then
      (st, Reply(400, Response(false, "Message must be between 10 and 1000 characters")))
    else
      var submission := Submission(NatToString(st.counter), Trim(req.name.value),
                                   Trim(req.message.value), now);
      (Store(st.submissions + [submission], st.counter + 1),
       Reply(201, Response(true, "Thank you for your message! We'll get back to you soon.")))
  }

  lemma SubmitPreservesValid(st: Store, req: ContactRequest, now: nat)
    requires Valid(st)
    ensures Valid(Submit(st, req, now).0)
  {
    var result := Submit(st, req, now);
    if result.1.status == 201 {
      var ids := SubmissionIds(st.submissions);
      CounterIds.NextIdFresh(ids, st.counter);
      var s' := result.0.submissions;
      assert |s'| == |ids| + 1 && s'[..|ids|] == st.submissions;
      assert s'[|ids|].id == NatToString(st.counter);
      assert SubmissionIds(s') == ids + [NatToString(st.counter)];
    }
  }

  /** The length bounds look at the untrimmed name, so a name that passes
      them can be stored shorter than the minimum. */
  lemma StoredNameMayBeShort()
    ensures var (st', reply) := Submit(Initial, ContactRequest(Some(" A"), Some("Hello there")), 0);
            reply.status == 201 && st'.submissions[0].name == "A" && |st'.submissions[0].name| < MinName
  {
    assert TrimStart(" A") == "A";
    assert Trim(" A") == "A";
  }

  // ----- The admin listing -----

  predicate NewestFirst(s: seq<Submission>) {
    forall i, j :: 0 <= i < j < |s| ==> s[i].submittedAt >= s[j].submittedAt
  }

  /** The submissions of `s` made at instant `t`, in their order in `s`. */
  function AtTime(s: seq<Submission>, t: nat): seq<Submission>
    decreases |s|
  {
    if |s| == 0 then []
    else (if s[0].submittedAt == t then [s[0]] else []) + AtTime(s[1..], t)
  }

  /** Places `x` before the first element no newer than it. */
  function Insert(x: Submission, s: seq<Submission>): (r: seq<Submission>)
    requires NewestFirst(s)
    ensures NewestFirst(r)
    ensures forall y :: y in r <==> y == x || y in s
    decreases |s|
  {
    if |s| == 0 then
      [x]
    else if x.submittedAt >= s[0].submittedAt then
      [x] + s
    else
      assert s == [s[0]] + s[1..];
      var rest := Insert(x, s[1..]);
      var r := [s[0]] + rest;
      assert forall y :: y in rest ==> y.submittedAt <= s[0].submittedAt;
      assert NewestFirst(r) by {
        forall i, j | 0 <= i < j < |r|
          ensures r[i].submittedAt >= r[j].submittedAt
        {
          assert r[j] == rest[j - 1];
          if i > 0 {
            assert r[i] == rest[i - 1];
          } else {
            assert rest[j - 1] in rest;
          }
        }
      }
      r
  }

  lemma {:induction false} InsertPermutes(x: Submission, s: seq<Submission>)
    requires NewestFirst(s)
    ensures multiset(Insert(x, s)) == multiset{x} + multiset(s)
    decreases |s|
  {
    if |s| > 0 && x.submittedAt < s[0].submittedAt {
      InsertPermutes(x, s[1..]);
      assert s == [s[0]] + s[1..];
    }
  }

  /** Inserting `x` puts it ahead of everything else made at its instant. */
  lemma {:induction false} InsertAtTime(x: Submission, s: seq<Submission>, t: nat)
    requires NewestFirst(s)
    ensures AtTime(Insert(x, s), t) == (if x.submittedAt == t then [x] else []) + AtTime(s, t)
    decreases |s|
  {
    if |s| == 0 {
    } else if x.submittedAt >= s[0].submittedAt {
      assert ([x] + s)[1..] == s;
    } else {
      var rest := Insert(x, s[1..]);
      InsertAtTime(x, s[1..], t);
      assert ([s[0]] + rest)[1..] == rest;
    }
  }

  /** A stable sort of `s` by `submittedAt`, newest first: the comparator
      `b - a` of the source under the stable `Array.prototype.sort`. */
  function SortNewestFirst(s: seq<Submission>): (r: seq<Submission>)
    ensures NewestFirst(r)
    ensures multiset(r) == multiset(s)
    decreases |s|
  {
    if |s| == 0 then []
    else
      assert s == [s[0]] + s[1..];
      InsertPermutes(s[0], SortNewestFirst(s[1..]));
      Insert(s[0], SortNewestFirst(s[1..]))
  }

  /** The sort is stable: submissions made at the same instant keep their
      relative order. */
  lemma {:induction false} SortIsStable(s: seq<Submission>, t: nat)
    ensures AtTime(SortNewestFirst(s), t) == AtTime(s, t)
    decreases |s|
  {
    if |s| > 0 {
      SortIsStable(s[1..], t);
      InsertAtTime(s[0], SortNewestFirst(s[1..]), t);
    }
  }

  /** GET of the submissions: the store itself is sorted in place and then
      returned. */
  function ListSubmissions(st: Store): (result: (Store, Reply))
    ensures result.0.counter == st.counter
    ensures result.1 == Reply(200, Listing(result.0.submissions))
    ensures NewestFirst(result.0.submissions)
    ensures multiset(result.0.submissions) == multiset(st.submissions)
  {
    var sorted := SortNewestFirst(st.submissions);
    (Store(sorted, st.counter), Reply(200, Listing(sorted)))
  }

  /** Reordering keeps the id invariant: ids stay distinct numerals below
      the counter. */
  lemma ListPreservesValid(st: Store)
    requires Valid(st)
    ensures Valid(ListSubmissions(st).0)
  {
    var s := st.submissions;
    var r := ListSubmissions(st).0.submissions;
    DistinctIds(s);
    SortKeepsDistinctIds(s);
    DistinctIds(r);
    forall i | 0 <= i < |r|
      ensures AllDigits(r[i].id) && ParseNat(r[i].id) < st.counter
    {
      assert r[i] in multiset(s);
      var k :| 0 <= k < |s| && s[k] == r[i];
      assert SubmissionIds(s)[k] == r[i].id;
    }
  }

  predicate IdsDistinct(s: seq<Submission>) {
    forall i, j :: 0 <= i < j < |s| ==> s[i].id != s[j].id
  }

  lemma DistinctIds(s: seq<Submission>)
    ensures IdsDistinct(s) <==> CounterIds.Distinct(SubmissionIds(s))
  {
    if CounterIds.Distinct(SubmissionIds(s)) {
      forall i, j | 0 <= i < j < |s|
        ensures s[i].id != s[j].id
      {
        assert SubmissionIds(s)[i] != SubmissionIds(s)[j];
      }
    }
  }

  lemma {:induction false} InsertKeepsDistinctIds(x: Submission, s: seq<Submission>)
    requires NewestFirst(s) && IdsDistinct(s)
    requires forall k :: 0 <= k < |s| ==> s[k].id != x.id
    ensures IdsDistinct(Insert(x, s))
    decreases |s|
  {
    if |s| > 0 && x.submittedAt < s[0].submittedAt {
      var rest := Insert(x, s[1..]);
      InsertKeepsDistinctIds(x, s[1..]);
      assert s == [s[0]] + s[1..];
      forall k | 0 <= k < |rest|
        ensures rest[k].id != s[0].id
      {
        assert rest[k] in multiset(rest);
        if rest[k] != x {
          assert rest[k] in s[1..];
        }
      }
    }
  }

  lemma {:induction false} SortKeepsDistinctIds(s: seq<Submission>)
    requires IdsDistinct(s)
    ensures IdsDistinct(SortNewestFirst(s))
    decreases |s|
  {
    if |s| > 0 {
      var rest := SortNewestFirst(s[1..]);
      SortKeepsDistinctIds(s[1..]);
      forall k | 0 <= k < |rest|
        ensures rest[k].id != s[0].id
      {
        assert rest[k] in multiset(s[1..]);
      }
      InsertKeepsDistinctIds(s[0], rest);
    }
  }
}

=== FILE: counter_ids.dfy ===
/**
 * Both in-memory stores of the server name their records with a counter that
 * starts at 1 and is rendered in decimal. This module states the invariant
 * such ids keep and why the next counter value is always a fresh id.
 */
module CounterIds {
  import opened Decimal

  predicate Distinct(ids: seq<string>) {
    forall i, j :: 0 <= i < j < |ids| ==> ids[i] != ids[j]
  }

  /** Every id is a numeral below the counter, and no id occurs twice. */
  predicate IssuedBelow(ids: seq<string>, counter: nat) {
    && Distinct(ids)
    && forall i :: 0 <= i < |ids| ==> AllDigits(ids[i]) && ParseNat(ids[i]) < counter
  }

  /** The counter's own numeral is not yet in use, and issuing it keeps the
      invariant once the counter moves on. */
  lemma NextIdFresh(ids: seq<string>, counter: nat)
    requires IssuedBelow(ids, counter)
    ensures NatToString(counter) !in ids
    ensures IssuedBelow(ids + [NatToString(counter)], counter + 1)
  {
    ParseNatToString(counter);
    var next := ids + [NatToString(counter)];
    forall i, j | 0 <= i < j < |next|
      ensures next[i] != next[j]
    {
      if j == |ids| {
        assert ParseNat(next[i]) < counter;
      }
    }
  }
}

=== FILE: decimal.dfy ===
/**
 * Decimal rendering of natural numbers, as `Number.prototype.toString()` and
 * template interpolation produce it for the counters and clock readings of
 * the server, together with its inverse.
 */
module Decimal {

  predicate IsDigit(c: char) {
    '0' <= c <= '9'
  }

  predicate AllDigits(s: string) {
    forall i :: 0 <= i < |s| ==> IsDigit(s[i])
  }

  function DigitChar(d: nat): (c: char)
    requires d < 10
    ensures IsDigit(c)
  {
    ('0' as int + d) as char
  }

  function DigitValue(c: char): (d: nat)
    requires IsDigit(c)
    ensures d < 10
  {
    c as int - '0' as int
  }

  /** The shortest decimal numeral for `n`: it starts with '0' only when it
      is "0" itself. */
  function NatToString(n: nat): (s: string)
    ensures |s| >= 1
    ensures AllDigits(s)
    ensures s[0] == '0' <==> n == 0
    decreases n
  {
    if n < 10 then [DigitChar(n)] else NatToString(n / 10) + [DigitChar(n % 10)]
  }

  /** The value of a numeral; the empty numeral reads as zero. */
  function ParseNat(s: string): nat
    requires AllDigits(s)
    decreases |s|
  {
    if |s| == 0 then 0 else ParseNat(s[..|s| - 1]) * 10 + DigitValue(s[|s| - 1])
  }

  /** Reading back a rendered number gives the number. */
  lemma {:induction false} ParseNatToString(n: nat)
    ensures ParseNat(NatToString(n)) == n
    decreases n
  {
    var s := NatToString(n);
    if n < 10 {
      assert s[..0] == [];
    } else {
      ParseNatToString(n / 10);
      assert s[..|s| - 1] == NatToString(n / 10);
    }
  }

  /** Distinct numbers render as distinct strings. */
  lemma NatToStringInjective(a: nat, b: nat)
    ensures NatToString(a) == NatToString(b) ==> a == b
  {
    ParseNatToString(a);
    ParseNatToString(b);
  }
}

=== FILE: js_string.dfy ===
/**
 * The JavaScript string operations the handlers use: truthiness of an
 * optional string, `toLowerCase`, `includes`, `split` on one character and
 * `trim`.
 */
module JsString {
  import opened Wrappers

  /** `!!x` for a value that is a string or absent: absent and "" are falsy. */
  predicate Truthy(x: Option<string>) {
    x.Some? && x.value != ""
  }

  /** Case mapping, restricted to ASCII letters. */
  function LowerChar(c: char): char {
    if 'A' <= c <= 'Z' then (c as int + 32) as char else c
  }

  /** `s.toLowerCase()` on ASCII letters: every capital becomes its small
      letter, every other character stays, and no capital is left. */
  function ToLowerCase(s: string): (r: string)
    ensures |r| == |s|
    ensures forall i :: 0 <= i < |s| && 'A' <= s[i] <= 'Z' ==> r[i] as int == s[i] as int + 32
    ensures forall i :: 0 <= i < |s| && !('A' <= s[i] <= 'Z') ==> r[i] == s[i]
    ensures forall i :: 0 <= i < |r| ==> !('A' <= r[i] <= 'Z')
  {
    seq(|s|, i requires 0 <= i < |s| => LowerChar(s[i]))
  }

  /** Lower-casing twice is lower-casing once. */
  lemma ToLowerCaseIdempotent(s: string)
    ensures ToLowerCase(ToLowerCase(s)) == ToLowerCase(s)
  {
  }

  predicate OccursAt(s: string, t: string, i: nat)
    requires i + |t| <= |s|
  {
    s[i..i + |t|] == t
  }

  /** `s.includes(t)`: `t` occurs somewhere in `s`. */
  predicate Includes(s: string, t: string) {
    exists i: nat :: i + |t| <= |s| && OccursAt(s, t, i)
  }

  /** A string includes every string it is built around, the empty string
      and itself among them. */
  lemma IncludesInfix(a: string, t: string, b: string)
    ensures Includes(a + t + b, t)
  {
    assert OccursAt(a + t + b, t, |a|);
  }

  /** Conversely, a string that includes `t` is built around `t`: the part
      before an occurrence, `t`, and the part after it. */
  lemma IncludesSplits(s: string, t: string)
    requires Includes(s, t)
    ensures exists i: nat :: i + |t| <= |s| && s == s[..i] + t + s[i + |t|..]
  {
    var i: nat :| i + |t| <= |s| && OccursAt(s, t, i);
    assert s == s[..i] + s[i..i + |t|] + s[i + |t|..];
  }

  /** `s.split(c)`: the maximal runs of `s` free of `c`, in order; never empty. */
  function Split(s: string, c: char): (r: seq<string>)
    ensures |r| >= 1
    ensures forall k :: 0 <= k < |r| ==> c !in r[k]
    ensures Join(r, c) == s
    decreases |s|
  {
    if |s| == 0 then [""]
    else if s[0] == c then
      var rest := Split(s[1..], c);
      assert s == [c] + s[1..];
      [""] + rest
    else
      var rest := Split(s[1..], c);
      assert s == [s[0]] + s[1..];
      [[s[0]] + rest[0]] + rest[1..]
  }

  /** `parts.join(c)`. */
  function Join(parts: seq<string>, c: char): string
    requires |parts| >= 1
    decreases |parts|
  {
    if |parts| == 1 then parts[0] else parts[0] + [c] + Join(parts[1..], c)
  }

  /** A string free of the separator splits into itself alone. */
  lemma {:induction false} SplitFree(s: string, c: char)
    requires c !in s
    ensures Split(s, c) == [s]
    decreases |s|
  {
    if |s| > 0 {
      SplitFree(s[1..], c);
    }
  }

  /** The first separator ends the first piece. */
  lemma {:induction false} SplitFirst(a: string, c: char, b: string)
    requires c !in a
    ensures Split(a + [c] + b, c) == [a] + Split(b, c)
    decreases |a|
  {
    var s := a + [c] + b;
    if |a| == 0 {
      assert s[1..] == b;
    } else {
      assert s[1..] == a[1..] + [c] + b;
      SplitFirst(a[1..], c, b);
      var rest := Split(s[1..], c);
      assert rest[0] == a[1..] && rest[1..] == Split(b, c);
      assert [s[0]] + rest[0] == a;
    }
  }

  /** The characters `String.prototype.trim` removes: WhiteSpace (with the
      whole Unicode Zs category) and LineTerminator of ECMAScript. */
  predicate IsWhitespace(ch: char) {
    || ch == '\t' || ch == '\n' || ch == '\r' || ch == ' '
    || ch == '\U{000B}' || ch == '\U{000C}' || ch == '\U{00A0}' || ch == '\U{1680}'
    || ('\U{2000}' <= ch <= '\U{200A}')
    || ch == '\U{2028}' || ch == '\U{2029}' || ch == '\U{202F}' || ch == '\U{205F}'
    || ch == '\U{3000}' || ch == '\U{FEFF}'
  }

  /** `s` with its leading whitespace removed. */
  function TrimStart(s: string): (r: string)
    ensures |r| <= |s| && r == s[|s| - |r|..]
    ensures forall k :: 0 <= k < |s| - |r| ==> IsWhitespace(s[k])
    ensures |r| > 0 ==> !IsWhitespace(r[0])
    decreases |s|
  {
    if |s| > 0 && IsWhitespace(s[0]) then TrimStart(s[1..]) else s
  }

  /** `s` with its trailing whitespace removed. */
  function TrimEnd(s: string): (r: string)
    ensures |r| <= |s| && r == s[..|r|]
    ensures forall k :: |r| <= k < |s| ==> IsWhitespace(s[k])
    ensures |r| > 0 ==> !IsWhitespace(r[|r| - 1])
    decreases |s|
  {
    if |s| > 0 && IsWhitespace(s[|s| - 1]) then TrimEnd(s[..|s| - 1]) else s
  }

  /** `s.trim()`: `s` with whitespace dropped at both ends. */
  function Trim(s: string): (r: string)
    ensures |r| <= |s|
    ensures |r| > 0 ==> !IsWhitespace(r[0]) && !IsWhitespace(r[|r| - 1])
  {
    TrimEnd(TrimStart(s))
  }

  /** What `Trim` drops is whitespace, and what it keeps is one contiguous
      slice of `s`. */
  lemma TrimSlice(s: string)
    ensures exists i: nat :: (i + |Trim(s)| <= |s| && OccursAt(s, Trim(s), i)
                              && (forall k :: 0 <= k < i ==> IsWhitespace(s[k]))
                              && (forall k :: i + |Trim(s)| <= k < |s| ==> IsWhitespace(s[k])))
  {
    var i := |s| - |TrimStart(s)|;
    TrimSliceAt(s);
    assert OccursAt(s, Trim(s), i);
  }

  lemma TrimSliceAt(s: string)
    ensures var i := |s| - |TrimStart(s)|;
            && i + |Trim(s)| <= |s|
            && s[i..i + |Trim(s)|] == Trim(s)
            && (forall k :: 0 <= k < i ==> IsWhitespace(s[k]))
            && (forall k :: i + |Trim(s)| <= k < |s| ==> IsWhitespace(s[k]))
  {
    var front := TrimStart(s);
    var r := TrimEnd(front);
    var i := |s| - |front|;
    assert front == s[i..];
    assert r == front[..|r|];
    forall k | i + |r| <= k < |s|
      ensures IsWhitespace(s[k])
    {
      assert s[k] == front[k - i];
    }
  }

  /** Trimming leaves a string without whitespace at its ends unchanged, so
      trimming twice is trimming once. */
  lemma TrimTrimmed(s: string)
    requires |s| > 0 ==> !IsWhitespace(s[0]) && !IsWhitespace(s[|s| - 1])
    ensures Trim(s) == s
  {
  }

  lemma TrimIdempotent(s: string)
    ensures Trim(Trim(s)) == Trim(s)
  {
    TrimTrimmed(Trim(s));
  }
}

=== FILE: product_search.dfy ===
/**
 * The product record of the shared API types and the search test that the
 * products route and the products page both apply.
 */
module ProductSearch {
  import opened Wrappers
  import opened JsString

  datatype Product = Product(id: string, name: string, price: string, category: string,
                             icon: string, description: Option<string>, inStock: bool)

  /** The name, the category or, when there is one, the description contains
      `term`, all compared lower-cased; `description?.` makes a missing
      description count as no match. */
  predicate MatchesSearch(p: Product, term: string) {
    var t := ToLowerCase(term);
    || Includes(ToLowerCase(p.name), t)
    || Includes(ToLowerCase(p.category), t)
    || (p.description.Some? && Includes(ToLowerCase(p.description.value), t))
  }

  /** The search as the test `filter` applies. */
  function SearchTest(term: string): Product -> bool {
    (p: Product) => MatchesSearch(p, term)
  }

  /** The category test of the products route: equal once lower-cased. */
  predicate SameCategoryIgnoringCase(p: Product, category: string) {
    ToLowerCase(p.category) == ToLowerCase(category)
  }

  /** The search ignores the case of the term: a term and its lower-cased
      form find the same products. */
  lemma SearchIgnoresCase(p: Product, term: string)
    ensures MatchesSearch(p, term) == MatchesSearch(p, ToLowerCase(term))
  {
    ToLowerCaseIdempotent(term);
  }

  /** A product without a description is found only through its name or
      its category. */
  lemma NoDescriptionMatchesByNameOrCategory(p: Product, term: string)
    requires p.description.None?
    ensures MatchesSearch(p, term) <==>
              Includes(ToLowerCase(p.name), ToLowerCase(term))
              || Includes(ToLowerCase(p.category), ToLowerCase(term))
  {
  }
}

=== FILE: products_page.dfy ===
/**
 * The products page: its client-side filter over the fetched products, the
 * category selector whose "All" entry stands for no filter, and the
 * add-to-cart button of each product card.
 */
module ProductsPage {
  import opened Wrappers
  import opened JsString
  import opened Sequences
  import opened ProductSearch
  import ProductsRoute

  /** The selector's labels, in order. */
  const CategoryLabels: seq<string> :=
    ["All", ProductsRoute.Grains, ProductsRoute.Dairy, ProductsRoute.Bakery, ProductsRoute.Produce,
     ProductsRoute.Healthcare, ProductsRoute.DailyNeeds, ProductsRoute.Kitchen]

  /** The value an option carries: "All" is sent as the empty string. */
  function OptionValue(caption: string): string {
    if caption == "All" then "" else caption
  }

  /** The selector offers "All", sent as the empty string, and then exactly
      the catalogue's categories, each sent as itself and each selecting. */
  lemma SelectorOptions()
    ensures |CategoryLabels| == 8 && CategoryLabels[0] == "All" && OptionValue(CategoryLabels[0]) == ""
    ensures forall i :: 1 <= i < |CategoryLabels| ==>
              OptionValue(CategoryLabels[i]) == CategoryLabels[i] && CategorySelected(CategoryLabels[i])
    ensures forall i :: 1 <= i < |CategoryLabels| ==>
              ProductsRoute.Catalogue()[i - 1].category == CategoryLabels[i]
    ensures forall k :: 0 <= k < |ProductsRoute.Catalogue()| ==>
              ProductsRoute.Catalogue()[k].category in CategoryLabels[1..]
  {
    var c := ProductsRoute.Catalogue();
    assert c[7].category == CategoryLabels[7];
  }

  /** Whether the category step of the filter applies. */
  predicate CategorySelected(selectedCategory: string) {
    selectedCategory != "" && selectedCategory != "All"
  }

  /** The page's category step as the test `filter` applies. */
  function ExactCategoryTest(category: string): Product -> bool {
    (p: Product) => p.category == category
  }

  /** `filterProducts`: the search of the products route, then an exact,
      case-sensitive category test. */
  function FilterProducts(products: seq<Product>, searchTerm: string, selectedCategory: string)
    : (r: seq<Product>)
    ensures IsSubsequence(r, products)
    ensures forall p :: p in r ==> p in products
    ensures forall p :: p in r ==> searchTerm != "" ==> MatchesSearch(p, searchTerm)
    ensures forall p :: p in r ==> CategorySelected(selectedCategory) ==> p.category == selectedCategory
    ensures forall p :: p in products
                        && (searchTerm != "" ==> MatchesSearch(p, searchTerm))
                        && (CategorySelected(selectedCategory) ==> p.category == selectedCategory)
                        ==> p in r
    ensures forall p :: p in products ==>
              multiset(r)[p] == if && (searchTerm != "" ==> MatchesSearch(p, searchTerm))
                                   && (CategorySelected(selectedCategory) ==> p.category == selectedCategory)
                                then multiset(products)[p] else 0
    ensures searchTerm == "" && !CategorySelected(selectedCategory) ==> r == products
  {
    var searched :=
      if searchTerm != "" then Filter(products, SearchTest(searchTerm))
      else products;
    SubsequenceOfItself(products);
    if CategorySelected(selectedCategory) then
      var r := Filter(searched, ExactCategoryTest(selectedCategory));
      SubsequenceTransitive(r, searched, products);
      r
    else
      searched
  }

  /** Choosing the "All" option shows every product the search lets through,
      exactly as an empty selection does. */
  lemma AllOptionIsNoFilter(products: seq<Product>, searchTerm: string)
    ensures FilterProducts(products, searchTerm, OptionValue("All"))
            == FilterProducts(products, searchTerm, "")
            == FilterProducts(products, searchTerm, "All")
    ensures FilterProducts(products, "", OptionValue("All")) == products
  {
  }

  /** Against the products route given the same parameters, the page keeps
      a subsequence of what the route keeps: an exact category match is
      also a match ignoring case. */
  lemma PageNarrowerThanRoute(products: seq<Product>, searchTerm: string, category: string)
    requires category != "All"
    ensures IsSubsequence(FilterProducts(products, searchTerm, category),
                          ProductsRoute.FilterByQuery(products, Some(searchTerm), Some(category)))
  {
    var searched :=
      if searchTerm != "" then Filter(products, SearchTest(searchTerm))
      else products;
    if category != "" {
      FilterMonotone(searched, ExactCategoryTest(category), ProductsRoute.CategoryTest(category));
    } else {
      SubsequenceOfItself(searched);
    }
  }

  /** Where the two differ: with "kitchen" the route returns cooking oil and
      sugar, while the page, comparing case-sensitively, shows nothing. The
      page's selector never sends "kitchen" (see `OptionsAgree`), so the
      difference shows only for a value sent to the route directly, as a
      `category` query parameter. */
  lemma KitchenCaseDiffers()
    ensures |ProductsRoute.GetProducts(None, Some("kitchen"))| == 2
    ensures FilterProducts(ProductsRoute.Catalogue(), "", "kitchen") == []
  {
    ProductsRoute.KitchenLowerCase();
    NoCatalogueCategoryIsLowerKitchen();
    NoExactCategoryMatch(ProductsRoute.Catalogue(), "kitchen");
  }

  /** For every option the selector can send and every search term, the
      page shows exactly the products the route returns for the same
      parameters. */
  lemma OptionsAgree(search: string, i: nat)
    requires i < |CategoryLabels|
    ensures var category := OptionValue(CategoryLabels[i]);
            FilterProducts(ProductsRoute.Catalogue(), search, category)
            == ProductsRoute.GetProducts(Some(search), Some(category))
  {
    SelectorOptions();
    LabelsCaseDistinct();
    var c := ProductsRoute.Catalogue();
    var cats := CategoryLabels[1..];
    assert "All" !in cats;
    forall p | p in c
      ensures p.category in cats
    {
      var k :| 0 <= k < |c| && c[k] == p;
    }
    if i == 0 {
      CaseDistinctListsAgree(c, search, "", cats);
    } else {
      assert CategoryLabels[i] == cats[i - 1];
      CaseDistinctListsAgree(c, search, CategoryLabels[i], cats);
    }
  }

  /** No two of `cats` are equal once lower-cased unless they are equal. */
  predicate CaseDistinct(cats: seq<string>) {
    forall i, j :: 0 <= i < |cats| && 0 <= j < |cats| && i != j ==>
                     ToLowerCase(cats[i]) != ToLowerCase(cats[j])
  }

  lemma LabelsCaseDistinct()
    ensures CaseDistinct(CategoryLabels[1..])
  {
    var cats := CategoryLabels[1..];
    forall i, j | 0 <= i < |cats| && 0 <= j < |cats| && i != j
      ensures ToLowerCase(cats[i]) != ToLowerCase(cats[j])
    {
      assert |cats[i]| != |cats[j]| || LowerChar(cats[i][0]) != LowerChar(cats[j][0]);
      assert |ToLowerCase(cats[i])| != |ToLowerCase(cats[j])|
             || ToLowerCase(cats[i])[0] != ToLowerCase(cats[j])[0];
    }
  }

  /** When every product's category is drawn from case-distinct `cats`, none
      of them "All", the exact category test and the case-insensitive one
      select the same products, so page and route agree for "" and for every
      one of `cats`. */
  lemma CaseDistinctListsAgree(products: seq<Product>, search: string, category: string,
                               cats: seq<string>)
    requires CaseDistinct(cats) && "All" !in cats
    requires forall p :: p in products ==> p.category in cats
    requires category == "" || category in cats
    ensures FilterProducts(products, search, category)
            == ProductsRoute.FilterByQuery(products, Some(search), Some(category))
  {
    var searched := if search != "" then Filter(products, SearchTest(search)) else products;
    if category != "" {
      forall p | p in searched
        ensures ExactCategoryTest(category)(p) == ProductsRoute.CategoryTest(category)(p)
      {
        CategoryTestsAgree(p.category, category, cats);
      }
      FilterExt(searched, ExactCategoryTest(category), ProductsRoute.CategoryTest(category));
    }
  }

  /** Among case-distinct categories, equality ignoring case is equality. */
  lemma CategoryTestsAgree(a: string, b: string, cats: seq<string>)
    requires CaseDistinct(cats) && a in cats && b in cats
    ensures (a == b) == (ToLowerCase(a) == ToLowerCase(b))
  {
    var i :| 0 <= i < |cats| && cats[i] == a;
    var j :| 0 <= j < |cats| && cats[j] == b;
    if i != j {
      assert ToLowerCase(cats[i]) != ToLowerCase(cats[j]);
    }
  }

  lemma NoExactCategoryMatch(products: seq<Product>, category: string)
    requires CategorySelected(category)
    requires forall p :: p in products ==> p.category != category
    ensures FilterProducts(products, "", category) == []
  {
    FilterNone(products, ExactCategoryTest(category));
  }

  lemma NoCatalogueCategoryIsLowerKitchen()
    ensures forall p :: p in ProductsRoute.Catalogue() ==> p.category != "kitchen"
  {
    var c := ProductsRoute.Catalogue();
    forall p | p in c
      ensures p.category != "kitchen"
    {
      var i :| 0 <= i < |c| && c[i] == p;
      assert p.category[0] != 'k';
    }
  }

  /** The product fields the card passes to the cart context's `addItem`. */
  datatype CartProduct = CartProduct(id: string, name: string, price: string,
                                     category: string, icon: string)

  /** The card's button: its label, whether it is disabled, and the product
      its click adds. */
  datatype AddButton = AddButton(caption: string, disabled: bool, adds: CartProduct)

  function AddButtonFor(p: Product): (b: AddButton)
    ensures b.disabled <==> !p.inStock
    ensures b.caption == (if p.inStock then "Add to Cart" else "Out of Stock")
  {
    AddButton(if p.inStock then "Add to Cart" else "Out of Stock", !p.inStock,
              CartProduct(p.id, p.name, p.price, p.category, p.icon))
  }

  /** The payload copies the product's fields, and in the catalogue its id
      alone identifies the product; no button for a catalogue product is
      disabled. Every product the route returns is a catalogue product, so
      this holds whatever the query. */
  lemma CatalogueButtons(k: nat)
    requires k < |ProductsRoute.Catalogue()|
    ensures var p := ProductsRoute.Catalogue()[k];
            var b := AddButtonFor(p);
            && !b.disabled
            && b.adds == CartProduct(p.id, p.name, p.price, p.category, p.icon)
            && forall q :: q in ProductsRoute.Catalogue() && q.id == b.adds.id ==> q == p
  {
    var c := ProductsRoute.Catalogue();
    IdIdentifies(c, c[k]);
  }

  lemma IdIdentifies(products: seq<Product>, p: Product)
    requires p in products
    requires forall i, j :: 0 <= i < j < |products| ==> products[i].id != products[j].id
    ensures forall q :: q in products && q.id == p.id ==> q == p
  {
    forall q | q in products && q.id == p.id
      ensures q == p
    {
      var i :| 0 <= i < |products| && products[i] == q;
      var j :| 0 <= j < |products| && products[j] == p;
      assert i == j;
    }
  }
}

=== FILE: products_route.dfy ===
/**
 * GET /api/products: the fixed catalogue, narrowed by the optional `search`
 * and `category` query parameters.
 */
module ProductsRoute {
  import opened Wrappers
  import opened JsString
  import opened Sequences
  import opened ProductSearch

  /** The catalogue's categories. */
  const Grains: string := "Grains"
  const Dairy: string := "Dairy"
  const Bakery: string := "Bakery"
  const Produce: string := "Produce"
  const Healthcare: string := "Healthcare"
  const DailyNeeds: string := "Daily Needs"
  const Kitchen: string := "Kitchen"

  function Catalogue(): (r: seq<Product>)
    ensures |r| == 8
    ensures forall i, j :: 0 <= i < j < |r| ==> r[i].id != r[j].id
    ensures forall i :: 0 <= i < |r| ==> r[i].inStock
  {
    [ Product("1", "Organic Rice", "₹45/kg", Grains, "wheat",
              Some("Premium quality organic rice from local farms"), true),
      Product("2", "Fresh Milk", "₹35/liter", Dairy, "milk",
              Some("Pure and fresh milk from local dairy farms"), true),
      Product("3", "Whole Wheat Bread", "₹25/loaf", Bakery, "bread",
              Some("Freshly baked whole wheat bread"), true),
      Product("4", "Seasonal Vegetables", "₹20/kg", Produce, "apple",
              Some("Fresh seasonal vegetables from local farmers"), true),
      Product("5", "Basic Medicine Kit", "₹150", Healthcare, "pill",
              Some("Essential medicines for common ailments"), true),
      Product("6", "Household Essentials", "₹80", DailyNeeds, "package",
              Some("Basic household items and cleaning supplies"), true),
      Product("7", "Cooking Oil", "₹120/liter", Kitchen, "droplet",
              Some("Pure sunflower cooking oil"), true),
      Product("8", "Sugar", "₹40/kg", Kitchen, "cube",
              Some("Fine quality white sugar"), true) ]
  }

  /** The route's category step as the test `filter` applies. */
  function CategoryTest(category: string): Product -> bool {
    (p: Product) => SameCategoryIgnoringCase(p, category)
  }

  /** The handler's two filtering steps, over any product list: an absent or
      empty parameter applies no filter. */
  function FilterByQuery(products: seq<Product>, search: Option<string>, category: Option<string>)
    : (r: seq<Product>)
    ensures IsSubsequence(r, products)
    ensures forall p :: p in r ==> p in products
    ensures forall p :: p in r ==> Truthy(search) ==> MatchesSearch(p, search.value)
    ensures forall p :: p in r ==> Truthy(category) ==> SameCategoryIgnoringCase(p, category.value)
    ensures forall p :: p in products
                        && (Truthy(search) ==> MatchesSearch(p, search.value))
                        && (Truthy(category) ==> SameCategoryIgnoringCase(p, category.value))
                        ==> p in r
    ensures forall p :: p in products ==>
              multiset(r)[p] == if && (Truthy(search) ==> MatchesSearch(p, search.value))
                                   && (Truthy(category) ==> SameCategoryIgnoringCase(p, category.value))
                                then multiset(products)[p] else 0
    ensures !Truthy(search) && !Truthy(category) ==> r == products
  {
    var searched :=
      if Truthy(search) then Filter(products, SearchTest(search.value))
      else products;
    SubsequenceOfItself(products);
    if Truthy(category) then
      var r := Filter(searched, CategoryTest(category.value));
      SubsequenceTransitive(r, searched, products);
      r
    else
      searched
  }

  /** The `getProducts` handler: the catalogue products that pass the query,
      in catalogue order; all of them when neither parameter is given. */
  function GetProducts(search: Option<string>, category: Option<string>): (r: seq<Product>)
    ensures IsSubsequence(r, Catalogue())
    ensures |r| <= |Catalogue()|
    ensures forall p :: p in r ==> p in Catalogue() && p.inStock
    ensures !Truthy(search) && !Truthy(category) ==> r == Catalogue()
  {
    var c := Catalogue();
    var r := FilterByQuery(c, search, category);
    SubsequenceShorter(r, c);
    r
  }

  /** With neither parameter, the whole catalogue comes back in order. */
  lemma UnfilteredIsCatalogue(search: Option<string>, category: Option<string>)
    requires !Truthy(search) && !Truthy(category)
    ensures GetProducts(search, category) == Catalogue()
  {
  }

  /** The category test ignores case: "kitchen" selects the two Kitchen
      products, cooking oil and sugar. */
  lemma KitchenLowerCase()
    ensures |GetProducts(None, Some("kitchen"))| == 2
    ensures GetProducts(None, Some("kitchen"))[0].id == "7"
    ensures GetProducts(None, Some("kitchen"))[1].id == "8"
  {
    OnlyTwoKitchenProducts();
    CategoryPicksPair(Catalogue(), "kitchen", 6, 7);
  }

  /** When exactly two products match a category parameter, the handler
      returns those two. */
  lemma CategoryPicksPair(s: seq<Product>, category: string, a: nat, b: nat)
    requires category != ""
    requires a < b < |s|
    requires SameCategoryIgnoringCase(s[a], category) && SameCategoryIgnoringCase(s[b], category)
    requires forall i :: 0 <= i < |s| && i != a && i != b ==> !SameCategoryIgnoringCase(s[i], category)
    ensures FilterByQuery(s, None, Some(category)) == [s[a], s[b]]
  {
    FilterPair(s, CategoryTest(category), a, b);
  }

  lemma OnlyTwoKitchenProducts()
    ensures forall i :: 0 <= i < 8 && i != 6 && i != 7 ==>
                        !SameCategoryIgnoringCase(Catalogue()[i], "kitchen")
    ensures SameCategoryIgnoringCase(Catalogue()[6], "kitchen")
    ensures SameCategoryIgnoringCase(Catalogue()[7], "kitchen")
    ensures Catalogue()[6].id == "7" && Catalogue()[7].id == "8"
  {
    var c := Catalogue();
    assert c[6].category == Kitchen && c[7].category == Kitchen;
    KitchenLowered();
    LowerFirstDiffers(c[0].category, "kitchen");
    LowerFirstDiffers(c[1].category, "kitchen");
    LowerFirstDiffers(c[2].category, "kitchen");
    LowerFirstDiffers(c[3].category, "kitchen");
    LowerFirstDiffers(c[4].category, "kitchen");
    LowerFirstDiffers(c[5].category, "kitchen");
  }

  lemma KitchenLowered()
    ensures ToLowerCase("kitchen") == "kitchen" && ToLowerCase(Kitchen) == "kitchen"
  {
  }

  lemma LowerFirstDiffers(a: string, b: string)
    requires |a| > 0 && |b| > 0 && LowerChar(a[0]) != LowerChar(b[0])
    ensures ToLowerCase(a) != ToLowerCase(b)
  {
    assert ToLowerCase(a)[0] != ToLowerCase(b)[0];
  }

  /** A filter that accepts exactly the elements at positions `a < b`
      returns those two elements. */
  lemma {:induction false} FilterPair(s: seq<Product>, f: Product -> bool, a: nat, b: nat)
    requires a < b < |s| && f(s[a]) && f(s[b])
    requires forall i :: 0 <= i < |s| && i != a && i != b ==> !f(s[i])
    ensures Filter(s, f) == [s[a], s[b]]
    decreases |s|
  {
    if a > 0 {
      FilterPair(s[1..], f, a - 1, b - 1);
    } else {
      FilterSingle(s[1..], f, b - 1);
    }
  }

  lemma {:induction false} FilterSingle(s: seq<Product>, f: Product -> bool, b: nat)
    requires b < |s| && f(s[b])
    requires forall i :: 0 <= i < |s| && i != b ==> !f(s[i])
    ensures Filter(s, f) == [s[b]]
    decreases |s|
  {
    if b > 0 {
      FilterSingle(s[1..], f, b - 1);
    } else {
      FilterNone(s[1..], f);
    }
  }
}

=== FILE: sequences.dfy ===
/**
 * The two array operations the handlers rely on, `Array.prototype.filter`
 * and `Array.prototype.find`, and what it means for one sequence to be an
 * order-preserving subsequence of another.
 */
module Sequences {
  import opened Wrappers

  /** `idx` maps each position of `a` to a position of `b` holding the same
      element, strictly increasing, so `a` is `b` with some elements dropped. */
  ghost predicate Embedding<T>(idx: seq<nat>, a: seq<T>, b: seq<T>) {
    && |idx| == |a|
    && (forall i :: 0 <= i < |idx| ==> idx[i] < |b| && a[i] == b[idx[i]])
    && (forall i, j :: 0 <= i < j < |idx| ==> idx[i] < idx[j])
  }

  ghost predicate IsSubsequence<T>(a: seq<T>, b: seq<T>) {
    exists idx :: Embedding(idx, a, b)
  }

  lemma SubsequenceOfItself<T>(a: seq<T>)
    ensures IsSubsequence(a, a)
  {
    var idx: seq<nat> := seq(|a|, i requires 0 <= i < |a| => i);
    assert Embedding(idx, a, a);
  }

  lemma SubsequenceSkip<T>(a: seq<T>, x: T, b: seq<T>)
    requires IsSubsequence(a, b)
    ensures IsSubsequence(a, [x] + b)
  {
    var idx :| Embedding(idx, a, b);
    var idx': seq<nat> := seq(|idx|, i requires 0 <= i < |idx| => idx[i] + 1);
    assert Embedding(idx', a, [x] + b);
  }

  lemma SubsequenceKeep<T>(a: seq<T>, x: T, b: seq<T>)
    requires IsSubsequence(a, b)
    ensures IsSubsequence([x] + a, [x] + b)
  {
    var idx :| Embedding(idx, a, b);
    var idx': seq<nat> := [0] + seq(|idx|, i requires 0 <= i < |idx| => idx[i] + 1);
    assert Embedding(idx', [x] + a, [x] + b);
  }

  /** A subsequence of a subsequence of `c` is a subsequence of `c`. */
  lemma SubsequenceTransitive<T>(a: seq<T>, b: seq<T>, c: seq<T>)
    requires IsSubsequence(a, b) && IsSubsequence(b, c)
    ensures IsSubsequence(a, c)
  {
    var ab :| Embedding(ab, a, b);
    var bc :| Embedding(bc, b, c);
    var ac: seq<nat> := seq(|ab|, i requires 0 <= i < |ab| => bc[ab[i]]);
    assert Embedding(ac, a, c);
  }

  /** A subsequence is never longer than the sequence it is drawn from. */
  lemma SubsequenceShorter<T>(a: seq<T>, b: seq<T>)
    requires IsSubsequence(a, b)
    ensures |a| <= |b|
  {
    var idx :| Embedding(idx, a, b);
    if |a| > 0 {
      IndexAtLeastPosition(idx, a, b, |a| - 1);
    }
  }

  lemma {:induction false} IndexAtLeastPosition<T>(idx: seq<nat>, a: seq<T>, b: seq<T>, i: nat)
    requires Embedding(idx, a, b) && i < |idx|
    ensures i <= idx[i]
  {
    if i > 0 {
      IndexAtLeastPosition(idx, a, b, i - 1);
    }
  }

  /** The elements of `s` satisfying `f`, in their order in `s`. */
  function Filter<T>(s: seq<T>, f: T -> bool): (r: seq<T>)
    ensures forall x :: x in r ==> x in s && f(x)
    ensures forall x :: x in s && f(x) ==> x in r
    ensures forall x :: x in s ==> multiset(r)[x] == if f(x) then multiset(s)[x] else 0
    ensures IsSubsequence(r, s)
    ensures (forall x :: x in s ==> f(x)) ==> r == s
    decreases |s|
  {
    if |s| == 0 then
      SubsequenceOfItself(s);
      []
    else
      var rest := Filter(s[1..], f);
      assert s == [s[0]] + s[1..];
      if f(s[0]) then
        SubsequenceKeep(rest, s[0], s[1..]);
        [s[0]] + rest
      else
        SubsequenceSkip(rest, s[0], s[1..]);
        rest
  }

  /** `Filter` depends only on the values its predicate takes on `s`. */
  lemma {:induction false} FilterExt<T>(s: seq<T>, f: T -> bool, g: T -> bool)
    requires forall x :: x in s ==> f(x) == g(x)
    ensures Filter(s, f) == Filter(s, g)
    decreases |s|
  {
    if |s| > 0 {
      FilterExt(s[1..], f, g);
    }
  }

  /** A stricter predicate keeps a subsequence of what a looser one keeps. */
  lemma {:induction false} FilterMonotone<T>(s: seq<T>, f: T -> bool, g: T -> bool)
    requires forall x :: x in s && f(x) ==> g(x)
    ensures IsSubsequence(Filter(s, f), Filter(s, g))
    decreases |s|
  {
    if |s| == 0 {
      SubsequenceOfItself(Filter(s, f));
    } else {
      FilterMonotone(s[1..], f, g);
      var a := Filter(s[1..], f);
      var b := Filter(s[1..], g);
      if f(s[0]) {
        SubsequenceKeep(a, s[0], b);
      } else if g(s[0]) {
        SubsequenceSkip(a, s[0], b);
      }
    }
  }

  /** A predicate that holds nowhere in `s` keeps nothing. */
  lemma {:induction false} FilterNone<T>(s: seq<T>, f: T -> bool)
    requires forall i :: 0 <= i < |s| ==> !f(s[i])
    ensures Filter(s, f) == []
    decreases |s|
  {
    if |s| > 0 {
      FilterNone(s[1..], f);
    }
  }

  /** The first element of `s` satisfying `f`, if any. */
  function Find<T(==)>(s: seq<T>, f: T -> bool): (r: Option<T>)
    ensures r.None? <==> forall i :: 0 <= i < |s| ==> !f(s[i])
    ensures r.Some? ==> exists i :: 0 <= i < |s| && s[i] == r.value && f(s[i])
                                    && forall j :: 0 <= j < i ==> !f(s[j])
    decreases |s|
  {
    if |s| == 0 then None
    else if f(s[0]) then Some(s[0])
    else
      var r := Find(s[1..], f);
      if r.Some? then
        var i :| 0 <= i < |s[1..]| && s[1..][i] == r.value && f(s[1..][i])
                 && forall j :: 0 <= j < i ==> !f(s[1..][j]);
        assert s[i + 1] == r.value && forall j :: 0 <= j < i + 1 ==> !f(s[j]);
        r
      else
        r
  }

  /** With at most one match in `s`, `Find` returns that match. */
  lemma FindUnique<T>(s: seq<T>, f: T -> bool, k: nat)
    requires k < |s| && f(s[k])
    requires forall i :: 0 <= i < |s| && i != k ==> !f(s[i])
    ensures Find(s, f) == Some(s[k])
  {
  }
}

=== FILE: wrappers.dfy ===
/** The optional value used wherever the source may hold `undefined` or `null`. */
module Wrappers {

  datatype Option<+T> = None | Some(value: T)
}
